=== FILE: README.md ===
# Answer normalisation and scoring of `data_process/utils.py`

This project models the text-normalisation and answer-scoring part of the
FusionBench evaluation utilities in Dafny. That part grades a model's answer
against a reference answer. It covers:

- `normalize_answer`. In standard mode it lower-cases, removes
  `string.punctuation`, replaces the `\b`-bounded words `a`, `an` and `the`
  with a space, then collapses whitespace with `' '.join(text.split())`. In
  `"mc"` mode it returns the last match of `\(\s*[a-zA-Z]\s*\)` in the raw
  text, or `""` when there is none.
- `f1_score`. This is token-overlap F1, precision and recall. The overlap is
  the multiset intersection of the two token lists (`Counter &`). Answers that
  normalise to `yes`, `no` or `noanswer` score all-or-nothing.
- `exact_match_score`. In standard mode it compares the normalised strings. In
  `"mc"` mode it tests whether the ground truth is a substring of the extracted
  choice.
- `cem_score` and `cemf1_score`. Both score 1 when the normalised ground truth
  is contained in the normalised prediction. Otherwise `cem_score` gives 0 and
  `cemf1_score` falls back to F1.
- `hellaswag_preprocess`. It strips the text and rewrites `" [title]"` as
  `". "`. It then deletes the lazy `[...]` spans, which contain no newline,
  and halves double spaces in one pass.

Strings are `seq<char>`, and every modelled Python function is total. Python's string
primitives are modelled in module `PyText`:

- character classes;
- `lower`, `split`, `' '.join` and `strip`;
- the `in` substring test.

These follow their ASCII behaviour. Whitespace is the set `str.isspace` gives
on ASCII: tab, LF, VT, FF, CR, the separators 0x1C-0x1F and the space. The
same set serves `split()`, `strip()` and the regex class `\s`.

The regex passes are written as left-to-right scans: `re.sub`, `re.findall`
and `str.replace`. Each scan resumes after a match, or moves one character on
when there is none. The article regex is decided by word runs. `\b(a|an|the)\b`
matches at a position exactly when no word character precedes it and the
maximal run of `\w` characters starting there is `a`, `an` or `the`. The scan
carries whether the previous character of the input was a word character,
because `re.sub` tests `\b` against the input, not the output. Precision,
recall and F1 are exact `real` ratios.

Modules: `Wrappers` (`Option`), `PyText` (string primitives), `Choice` (the
`"mc"` extraction), `Normalizer` (`normalize_answer`), `Scoring` (`f1_score`,
`exact_match_score`, `cem_score`, `cemf1_score`) and `Hellaswag`
(`hellaswag_preprocess`).

`f1_score` tests the yes/no/noanswer guard on both sides (lines 133-136), so
`F1Symmetric` proves the whole of `f1_score` symmetric, up to exchanging
precision and recall.

## Model

| member | source | states |
|---|---|---|
| PyText.Lower | data_process/utils.py:103-104 | `lower()` keeps the length and maps each character on its own, A-Z to a-z (`LowerFixedIff` states when it changes nothing) |
| PyText.LowerFixedIff | data_process/utils.py:103-104 | lower-casing leaves a string unchanged exactly when it has no upper-case ASCII letter, and its result never has one |
| PyText.Split | data_process/utils.py:96-97 | `split()` yields non-empty whitespace-free tokens made of the input's characters, and no token exactly when the input is all whitespace (their order and extent are fixed by `SplitConcat`) |
| PyText.SplitConcat | data_process/utils.py:96-97 | `split()` of two strings joined at whitespace is the tokens of the first followed by those of the second; with the one-token and all-whitespace cases this fixes the tokens as the maximal non-whitespace runs, in order |
| PyText.SplitJoin | data_process/utils.py:96-97 | round trip: splitting the single-space join of whitespace-free tokens gives the tokens back |
| PyText.CollapseSpacesShape | data_process/utils.py:96-97 | `' '.join(s.split())` has no whitespace but single inner plain spaces and keeps only non-whitespace characters of `s` |
| PyText.CollapseSpacesFixedIff | data_process/utils.py:96-97 | whitespace collapsing leaves a string unchanged exactly when it already has that collapsed shape |
| PyText.ContainsIffOccurs | data_process/utils.py:174 | Python's substring `in` holds exactly when the needle occurs at some index of the haystack |
| PyText.ContainsTrivial | data_process/utils.py:183 | the empty string and the string itself are always contained |
| PyText.Strip | data_process/utils.py:166 | `strip()` returns a slice of its input; everything cut off is whitespace, and the slice has no whitespace at either end |
| Choice.FindAll | data_process/utils.py:107 | every element `findall` returns is a choice token `(`, whitespace, one letter, whitespace, `)` (`FindAllPrefix` and `FindAllFirst` fix every element, `FindAllLast` whether there is any and which is last) |
| Choice.ChoiceMatchIff | data_process/utils.py:107 | the anchored matcher accepts a prefix exactly when it is `(`, whitespace, one ASCII letter, whitespace, `)` |
| Choice.FindAllLast | data_process/utils.py:107-110 | `findall` finds nothing exactly when no match begins anywhere; its last element is the match beginning rightmost, and no match begins after it |
| Choice.FindAllPrefix | data_process/utils.py:107 | text in which no match begins contributes nothing to `findall` |
| Choice.FindAllFirst | data_process/utils.py:107 | `findall` lists the leftmost match first, then the matches found after its end; with `FindAllPrefix` this fixes the whole list |
| Choice.FindAllTwoChoices | data_process/utils.py:107 | `findall` on `"(a) (b)"` returns both matches, `["(a)", "(b)"]`, in order |
| Choice.McRemove | data_process/utils.py:106-110 | the `"mc"` result is `""` exactly when the input has no match; otherwise it is a choice token and the last match of the input |
| Normalizer.RemovePunc | data_process/utils.py:99-101 | every character outside `string.punctuation` is kept as often as it occurs, and every punctuation character is dropped |
| Normalizer.RemovePuncConcat | data_process/utils.py:99-101 | punctuation removal works piece by piece, so the kept characters stay in their order |
| Normalizer.RemovePuncFixedIff | data_process/utils.py:99-101 | punctuation removal leaves a string unchanged exactly when it has no punctuation |
| Normalizer.RemoveArticlesFrom | data_process/utils.py:93-94 | the article substitution never lengthens the text and brings in no character but the space (`RemoveArticlesFixedIff`, `RemoveArticlesClean` and `RemoveArticlesTokens` fix what it removes) |
| Normalizer.RemoveArticlesFixedIff | data_process/utils.py:93-94 | the article substitution leaves a string unchanged exactly when no `\b`-bounded `a`, `an` or `the` begins in it |
| Normalizer.RemoveArticlesClean | data_process/utils.py:93-94 | the article substitution leaves no `\b`-bounded article behind |
| Normalizer.RemoveArticlesTokens | data_process/utils.py:93-94 | on text of word characters and whitespace, the article substitution drops exactly the tokens `a`, `an` and `the` and keeps every other token, in order |
| Normalizer.NormalizeStandard | data_process/utils.py:112-114 | the standard pipeline's result has single inner spaces and no other whitespace; `NormalizeStandardShape`, `NormalizeFixedIff` and `NormalizeStandardTokens` give its full shape, fixed points and tokens |
| Normalizer.NormalizeAnswer | data_process/utils.py:81-114 | `"mc"` mode gives `""` or a choice token, every other mode a collapsed string (`McRemove` and `NormalizeStandardShape` state the rest) |
| Normalizer.NormalizeStandardShape | data_process/utils.py:93-114 | the standard result has no upper-case letter, no punctuation, no leading, trailing or double space, no whitespace but the space, and no `\b`-bounded article |
| Normalizer.NormalizedTokensNoArticle | data_process/utils.py:93-114 | no whitespace-separated token of the standard result is `a`, `an` or `the` |
| Normalizer.NormalizedIsFixed | data_process/utils.py:112-114 | every string of the normalised shape is returned unchanged by the standard pipeline |
| Normalizer.NormalizeIdempotent | data_process/utils.py:112-114 | normalising a standard result again returns it unchanged |
| Normalizer.NormalizeFixedIff | data_process/utils.py:112-114 | the fixed points of the standard pipeline are exactly the strings of the normalised shape |
| Normalizer.NormalizeStandardTokens | data_process/utils.py:93-114 | on printable ASCII and whitespace, the tokens of the standard result are the lower-cased, punctuation-free tokens of the input other than `a`, `an` and `the`, in order |
| Scoring.NumSame | data_process/utils.py:140-141 | the shared-token count is at most either token count, and equals one side's count exactly when that side's multiset is contained in the other's |
| Scoring.NumSameSymmetric | data_process/utils.py:140-141 | the shared-token count does not depend on argument order |
| Scoring.TokenF1 | data_process/utils.py:143-150 | no shared token gives `(0,0,0)`; otherwise precision and recall lie in (0,1] |
| Scoring.TokenF1Unit | data_process/utils.py:143-150 | with shared tokens F1 is twice the shared count over the sum of the token counts, in (0,1]; precision is 1 iff the predicted multiset is contained in the reference one; recall likewise in the other direction; F1 is 1 iff the multisets are equal |
| Scoring.TokenF1Swap | data_process/utils.py:140-150 | swapping the token lists keeps F1 and exchanges precision and recall |
| Scoring.F1Score | data_process/utils.py:117-150 | the yes/no/noanswer guard forces `(0,0,0)`; any other result has precision and recall in (0,1] (`F1Bounds`, `F1PerfectIff` and `F1Symmetric` state the rest) |
| Scoring.F1Bounds | data_process/utils.py:128-150 | all three scores lie in [0,1]; `num_same` is at most either token count; the result is `(0,0,0)` exactly when the yes/no/noanswer guard fires or nothing is shared; an empty normalised side gives `(0,0,0)` |
| Scoring.F1PerfectIff | data_process/utils.py:133-150 | F1 is 1 exactly when the guard does not fire, the prediction has tokens and the two token multisets are equal |
| Scoring.F1Symmetric | data_process/utils.py:133-150 | swapping prediction and ground truth keeps F1 and exchanges precision with recall, the guard included |
| Scoring.NormalizedHasTokens | data_process/utils.py:138-139 | a non-empty standard result has at least one token |
| Scoring.F1EqualNormalized | data_process/utils.py:128-150 | answers that normalise to the same non-empty string score `(1,1,1)` |
| Scoring.ExactMatch | data_process/utils.py:153-168 | in standard mode every answer matches itself; in `"mc"` mode a ground truth that is blank after stripping always matches (`ExactMatchStandard` and `ExactMatchChoice` give both modes exactly) |
| Scoring.ExactMatchStandard | data_process/utils.py:167-168 | outside `"mc"` mode, exact match is equality of the normalised strings, hence reflexive and symmetric |
| Scoring.ExactMatchChoice | data_process/utils.py:165-166 | in `"mc"` mode, exact match holds iff the stripped, lower-cased ground truth occurs in the stripped, lower-cased extraction; a blank ground truth always matches; with no choice in the prediction only a blank one does |
| Scoring.CemScore | data_process/utils.py:180-186 | `cem_score` is 0 or 1, and 1 whenever the ground truth normalises to `""` (`CemIff` gives the exact condition) |
| Scoring.Cemf1Score | data_process/utils.py:171-177 | `cemf1_score` is at least the F1 and at most 1, and is 1 whenever `cem_score` is (`Cemf1Order` relates the two fully) |
| Scoring.CemIff | data_process/utils.py:180-186 | `cem_score` is 1 exactly when the normalised ground truth occurs in the normalised prediction, which includes an empty ground truth; otherwise it is 0 |
| Scoring.Cemf1Order | data_process/utils.py:171-186 | `cemf1_score` is 1 whenever `cem_score` is, and F1 otherwise, so `0 <= cem <= cemf1 <= 1` and `f1 <= cemf1` |
| Scoring.ExactMatchScoresOne | data_process/utils.py:153-186 | a standard-mode exact match scores 1 on `cem` and `cemf1`, and F1 = 1 unless both sides normalise to empty |
| Hellaswag.Replace | data_process/utils.py:193-195 | `replace` never lengthens the text when the replacement is no longer than the pattern, leaves it unchanged when the pattern is absent, and shortens it when the pattern occurs and the replacement is strictly shorter |
| Hellaswag.ReplaceFixedIff | data_process/utils.py:193-195 | a shortening `replace` leaves the text unchanged exactly when the pattern does not occur |
| Hellaswag.ReplacePrefix | data_process/utils.py:193-195 | `replace` copies the text in front of the first occurrence unchanged |
| Hellaswag.ReplaceFirst | data_process/utils.py:193-195 | `replace` turns the leftmost occurrence into the replacement, keeps the text in front of it and carries on after it |
| Hellaswag.CloseAt | data_process/utils.py:194 | the lazy `.*?]` closes at the first `]` with no newline before it, and fails only when every `]` has a newline before it |
| Hellaswag.RemoveBrackets | data_process/utils.py:194 | bracket removal never lengthens the text and changes nothing when there is no `[` |
| Hellaswag.RemoveBracketsPrefix | data_process/utils.py:194 | bracket removal copies unchanged any text in which no `[...]` match begins, including a `[` that closes nowhere |
| Hellaswag.RemoveBracketsFirst | data_process/utils.py:194 | bracket removal deletes the leftmost `[...]` match, keeps the text in front of it (unmatched `[` included) and carries on after it |
| Hellaswag.RemoveBracketsUnmatchedOpen | data_process/utils.py:194 | on `"[\n[a]b"` the first `[` closes nowhere and is kept, the match `[a]` is deleted, giving `"[\nb"` |
| Hellaswag.RemoveBracketsFixedIff | data_process/utils.py:194 | bracket removal leaves the text unchanged exactly when no `[...]` span matches anywhere in it |
| Hellaswag.RemoveBracketsNoSpan | data_process/utils.py:194 | after bracket removal, a newline lies between every `[` and any `]` after it |
| Hellaswag.Preprocess | data_process/utils.py:190-196 | the preprocessed text is never longer than the input |
| Hellaswag.PreprocessPlain | data_process/utils.py:190-196 | when the stripped text has no `[` and no double space, the result is the stripped text |

## Left out

- `loadjson`, `savejson`, `loadpkl`, `savepkl` (lines 26-77): file I/O and pickling, with no logic of their own.
- `reduce_embedding_dim`, `get_longformer_representation`, `get_embedding` and the module-level model loading (lines 13-23, 200-279): floating-point numerics delegated to sklearn, torch and sentence-transformers.
- `evaluate_code` (lines 282-327): dynamic `exec` under a SIGALRM timeout. Its behaviour belongs to the interpreter and to signal delivery.
- `get_client` and `model_prompting` (lines 330-392): a network client with global cached state.
- Float rounding: precision, recall and F1 are exact rationals, not IEEE doubles. `ZERO_METRIC`'s integer zeros are `0.0`.
- Non-ASCII text: Python's `lower`, `split`, `strip`, `\s` and `\w`/`\b` are Unicode-aware. The model gives every non-ASCII character ASCII treatment: uncased, not whitespace, not a word character, not punctuation.
- Hellaswag.Preprocess: the contract bounds the length and fixes the plain-text case. It does not describe the output of the final double-space pass in general.
- Normalizer.NormalizeStandardTokens: stated for printable ASCII and ASCII whitespace only. A control character is neither a word character nor whitespace, so it ends a `\b` word without ending a `split()` token. There the tokens and the article words differ.

=== FILE: choice.dfy ===
/**
  The multiple-choice mode of `normalize_answer`: `re.findall` of the pattern
  `\(\s*[a-zA-Z]\s*\)` over the raw input, keeping the last match.
 */
module Choice {
  import opened Wrappers
  import opened PyText

  /** A string the pattern matches in full: an opening parenthesis, whitespace,
      exactly one ASCII letter at index `k`, whitespace, a closing parenthesis. */
  predicate IsChoiceTokenWith(t: string, k: int) {
    && |t| >= 3 && t[0] == '(' && t[|t| - 1] == ')'
    && 1 <= k < |t| - 1 && IsLetter(t[k])
    && (forall j :: 1 <= j < |t| - 1 && j != k ==> IsSpace(t[j]))
  }

  predicate IsChoiceToken(t: string) {
    exists k :: 0 <= k < |t| && IsChoiceTokenWith(t, k)
  }

  /** The match of the pattern anchored at the start of `s`, as its length.
      `SpaceRun` plays the greedy `\s*`. Whitespace is never a letter nor `)`,
      so backtracking into `\s*` can never help and the greedy runs decide
      the match. */
  function ChoiceMatch(s: string): (m: Option<nat>)
    ensures m.Some? ==> m.value <= |s| && IsChoiceToken(s[..m.value])
  {
    if s == [] || s[0] != '(' then None
    else
      var a := 1 + SpaceRun(s[1..]);
      assert forall i :: 1 <= i < a ==> IsSpace(s[i]) by {
        assert forall i :: 1 <= i < a ==> s[i] == s[1..][i - 1];
      }
      if a == |s| || !IsLetter(s[a]) then None
      else
        var b := a + 1 + SpaceRun(s[a + 1..]);
        assert forall i :: a + 1 <= i < b ==> IsSpace(s[i]) by {
          assert forall i :: a + 1 <= i < b ==> s[i] == s[a + 1..][i - a - 1];
        }
        if b == |s| || s[b] != ')' then None
        else
          assert IsChoiceTokenWith(s[..b + 1], a);
          Some(b + 1)
  }

  /** The anchored matcher accepts a prefix exactly when that prefix is a
      choice token. */
  lemma ChoiceMatchIff(s: string, n: nat)
    ensures ChoiceMatch(s) == Some(n) <==> n <= |s| && IsChoiceToken(s[..n])
  {
  }

  /** `re.findall`: scan left to right, record each match and resume after it,
      otherwise move one character on. */
  function FindAll(s: string): (ms: seq<string>)
    ensures forall k :: 0 <= k < |ms| ==> IsChoiceToken(ms[k])
    decreases |s|
  {
    if s == [] then []
    else
      match ChoiceMatch(s)
      case Some(n) =>
        assert n >= 3 by {
          var k :| IsChoiceTokenWith(s[..n], k);
        }
        [s[..n]] + FindAll(s[n..])
      case None => FindAll(s[1..])
  }

  /** A match of the pattern begins at index `i` of `s`. */
  predicate HasChoiceAt(s: string, i: int) {
    0 <= i < |s| && ChoiceMatch(s[i..]).Some?
  }

  /** `m` is the match beginning at index `i` and no match begins after it. */
  predicate IsLastChoiceAt(s: string, m: string, i: int) {
    && HasChoiceAt(s, i)
    && ChoiceMatch(s[i..]).value == |m|
    && s[i..i + |m|] == m
    && (forall j :: i < j < |s| ==> !HasChoiceAt(s, j))
  }

  function Last(ms: seq<string>): string
    requires ms != []
  {
    ms[|ms| - 1]
  }

  /** Positions at or after `d` in `s` carry a match exactly when the
      corresponding positions of the suffix `s[d..]` do. */
  lemma ChoiceShift(s: string, d: nat)
    requires d <= |s|
    ensures forall j :: d <= j < |s| ==> (HasChoiceAt(s, j) <==> HasChoiceAt(s[d..], j - d))
  {
  }

  /** The last match of a suffix, shifted back, is the last match of `s`
      provided nothing else begins after it. */
  lemma LastChoiceShift(s: string, d: nat, m: string, i: int)
    requires d <= |s|
    requires IsLastChoiceAt(s[d..], m, i)
    ensures IsLastChoiceAt(s, m, i + d)
  {
    ChoiceShift(s, d);
    assert s[i + d..] == s[d..][i..];
    assert s[i + d..i + d + |m|] == s[d..][i..i + |m|];
  }

  /** What `FindAllLast` states, for one string. */
  ghost predicate FindAllIsLast(s: string) {
    && (FindAll(s) == [] <==> forall i :: 0 <= i < |s| ==> !HasChoiceAt(s, i))
    && (FindAll(s) != [] ==> exists i :: IsLastChoiceAt(s, Last(FindAll(s)), i))
  }

  /** No match begins strictly inside another match. */
  lemma NoChoiceInsideMatch(s: string, n: nat)
    requires ChoiceMatch(s) == Some(n)
    ensures forall j :: 0 < j < n ==> !HasChoiceAt(s, j)
  {
  }

  /** The step of `FindAllLast` when a match of length `n` begins at index 0. */
  lemma FindAllLastMatchStep(s: string, n: nat)
    requires s != [] && ChoiceMatch(s) == Some(n)
    requires FindAllIsLast(s[n..])
    ensures FindAllIsLast(s)
  {
    var rest := s[n..];
    assert FindAll(s) == [s[..n]] + FindAll(rest);
    assert HasChoiceAt(s, 0) by { assert s[0..] == s; }
    if FindAll(rest) == [] {
      FirstIsLastChoice(s, n);
      assert Last(FindAll(s)) == s[..n];
    } else {
      var i' :| IsLastChoiceAt(rest, Last(FindAll(rest)), i');
      LastChoiceShift(s, n, Last(FindAll(rest)), i');
      assert Last(FindAll(s)) == Last(FindAll(rest));
    }
  }

  /** A match at index 0 with none after it is the last match. */
  lemma FirstIsLastChoice(s: string, n: nat)
    requires s != [] && ChoiceMatch(s) == Some(n)
    requires forall i :: 0 <= i < |s[n..]| ==> !HasChoiceAt(s[n..], i)
    ensures IsLastChoiceAt(s, s[..n], 0)
  {
    assert s[0..] == s;
    NoChoiceInsideMatch(s, n);
    ChoiceShift(s, n);
    assert s[0..n] == s[..n];
  }

  /** The step of `FindAllLast` when no match begins at index 0. */
  lemma FindAllLastSkipStep(s: string)
    requires s != [] && ChoiceMatch(s).None?
    requires FindAllIsLast(s[1..])
    ensures FindAllIsLast(s)
  {
    assert s[0..] == s;
    var rest := s[1..];
    ChoiceShift(s, 1);
    if FindAll(rest) != [] {
      var i' :| IsLastChoiceAt(rest, Last(FindAll(rest)), i');
      LastChoiceShift(s, 1, Last(FindAll(rest)), i');
    }
  }

  /** `findall` finds nothing exactly when no match begins anywhere, and its
      last element is the match that begins rightmost. */
  lemma {:induction false} FindAllLast(s: string)
    ensures FindAll(s) == [] <==> forall i :: 0 <= i < |s| ==> !HasChoiceAt(s, i)
    ensures FindAll(s) != [] ==> exists i :: IsLastChoiceAt(s, Last(FindAll(s)), i)
    decreases |s|
  {
    if s != [] {
      match ChoiceMatch(s)
      case Some(n) =>
        FindAllLast(s[n..]);
        FindAllLastMatchStep(s, n);
      case None =>
        FindAllLast(s[1..]);
        FindAllLastSkipStep(s);
    }
  }

  /** Text in which no match begins adds nothing to `findall`. */
  lemma {:induction false} FindAllPrefix(u: string, v: string)
    requires forall i :: 0 <= i < |u| ==> !HasChoiceAt(u + v, i)
    ensures FindAll(u + v) == FindAll(v)
    decreases |u|
  {
    if u == [] {
      assert u + v == v;
    } else {
      var s := u + v;
      assert s[0..] == s;
      assert !HasChoiceAt(s, 0);
      assert s[1..] == u[1..] + v;
      ChoiceShift(s, 1);
      forall i | 0 <= i < |u[1..]| ensures !HasChoiceAt(u[1..] + v, i) {
        assert !HasChoiceAt(s, i + 1);
      }
      FindAllPrefix(u[1..], v);
    }
  }

  /** `findall` records the leftmost match, skips the text in front of it and
      carries on after it; with `FindAllPrefix` this fixes every element. */
  lemma FindAllFirst(u: string, v: string, n: nat)
    requires forall i :: 0 <= i < |u| ==> !HasChoiceAt(u + v, i)
    requires ChoiceMatch(v) == Some(n)
    ensures FindAll(u + v) == [v[..n]] + FindAll(v[n..])
  {
    FindAllPrefix(u, v);
  }

  /** A one-letter choice in front of `rest` is matched in full. */
  lemma ChoiceMatchLetter(c: char, rest: string)
    requires IsLetter(c)
    ensures ChoiceMatch(['(', c, ')'] + rest) == Some(3)
  {
    var s := ['(', c, ')'] + rest;
    assert s[..3] == ['(', c, ')'];
    assert IsChoiceTokenWith(s[..3], 1);
    ChoiceMatchIff(s, 3);
  }

  /** The second match of `"(a) (b)"`, after the skipped space. */
  lemma FindAllSecondChoice()
    ensures FindAll(" (b)") == ["(b)"]
  {
    var u, v := " ", "(b)";
    ChoiceMatchLetter('b', []);
    assert v == ['(', 'b', ')'] + [];
    assert (u + v)[0..] == " (b)";
    assert !HasChoiceAt(u + v, 0);
    FindAllFirst(u, v, 3);
    assert v[..3] == "(b)" && v[3..] == [];
  }

  /** Both matches of `"(a) (b)"` are found, in order. */
  lemma FindAllTwoChoices()
    ensures FindAll("(a) (b)") == ["(a)", "(b)"]
  {
    var s := "(a) (b)";
    ChoiceMatchLetter('a', " (b)");
    assert s == ['(', 'a', ')'] + " (b)";
    assert s[..3] == "(a)" && s[3..] == " (b)";
    FindAllSecondChoice();
  }

  /** `mc_remove`: the last match of the pattern, or `""` when there is none. */
  function McRemove(s: string): (r: string)
    ensures r == [] <==> forall i :: 0 <= i < |s| ==> !HasChoiceAt(s, i)
    ensures r != [] ==> IsChoiceToken(r) && exists i :: IsLastChoiceAt(s, r, i)
  {
    var ms := FindAll(s);
    FindAllLast(s);
    if |ms| == 0 then "" else Last(ms)
  }
}

=== FILE: hellaswag.dfy ===
/**
  `hellaswag_preprocess`: strip, turn `" [title]"` into `". "`, delete the
  bracketed WikiHow artifacts `\[.*?\]`, and halve double spaces once.
 */
module Hellaswag {
  import opened Wrappers
  import opened PyText

  /** `str.replace(pat, rep)`: scan left to right, replacing each
      non-overlapping occurrence of `pat` and resuming after it. */
  function Replace(s: string, pat: string, rep: string): (r: string)
    requires |pat| > 0
    ensures |rep| <= |pat| ==> |r| <= |s|
    ensures !Contains(s, pat) ==> r == s
    ensures |rep| < |pat| && Contains(s, pat) ==> |r| < |s|
    decreases |s|
  {
    if s == [] then []
    else if pat <= s then rep + Replace(s[|pat|..], pat, rep)
    else [s[0]] + Replace(s[1..], pat, rep)
  }

  /** A shortening `replace` leaves the text unchanged exactly when the
      pattern does not occur. */
  lemma ReplaceFixedIff(s: string, pat: string, rep: string)
    requires |rep| < |pat|
    ensures Replace(s, pat, rep) == s <==> !Contains(s, pat)
  {
  }

  /** Text in front of the first occurrence is copied unchanged. */
  lemma {:induction false} ReplacePrefix(u: string, v: string, pat: string, rep: string)
    requires |pat| > 0
    requires forall i :: 0 <= i < |u| ==> !OccursAt(u + v, pat, i)
    ensures Replace(u + v, pat, rep) == u + Replace(v, pat, rep)
    decreases |u|
  {
    if u == [] {
      assert u + v == v;
    } else {
      var s := u + v;
      assert s[1..] == u[1..] + v;
      PrefixIsOccurrence(s, pat);
      forall i | 0 <= i < |u[1..]| ensures !OccursAt(u[1..] + v, pat, i) {
        OccursShift(s, pat, i);
      }
      ReplacePrefix(u[1..], v, pat, rep);
      ReplaceCopyStep(u, v, pat, rep);
    }
  }

  /** A prefix is an occurrence at index 0. */
  lemma PrefixIsOccurrence(s: string, pat: string)
    ensures pat <= s <==> OccursAt(s, pat, 0)
  {
    if OccursAt(s, pat, 0) {
      assert s[..|pat|] == pat;
    }
  }

  /** An occurrence in the tail is an occurrence one place further on. */
  lemma OccursShift(s: string, pat: string, i: nat)
    requires s != []
    ensures OccursAt(s[1..], pat, i) ==> OccursAt(s, pat, i + 1)
  {
    if i + |pat| <= |s[1..]| {
      assert s[1..][i..i + |pat|] == s[i + 1..i + 1 + |pat|];
    }
  }

  /** The step of `ReplacePrefix`: a first character that starts no
      occurrence is copied. */
  lemma ReplaceCopyStep(u: string, v: string, pat: string, rep: string)
    requires |pat| > 0 && u != [] && !(pat <= u + v)
    requires Replace(u[1..] + v, pat, rep) == u[1..] + Replace(v, pat, rep)
    ensures Replace(u + v, pat, rep) == u + Replace(v, pat, rep)
  {
    ConcatSlices(u, v, 1);
    ReplaceCons(u + v, pat, rep);
    ConsAssoc(u[0], u[1..], Replace(v, pat, rep));
    ConsTail(u);
  }

  /** A first character that starts no occurrence is copied. */
  lemma ReplaceCons(s: string, pat: string, rep: string)
    requires |pat| > 0 && s != [] && !(pat <= s)
    ensures Replace(s, pat, rep) == [s[0]] + Replace(s[1..], pat, rep)
  {
  }

  /** `replace` rewrites the leftmost occurrence, keeps what is in front of
      it, and carries on after it. */
  lemma ReplaceFirst(u: string, w: string, pat: string, rep: string)
    requires |pat| > 0
    requires forall i :: 0 <= i < |u| ==> !OccursAt(u + pat + w, pat, i)
    ensures Replace(u + pat + w, pat, rep) == u + rep + Replace(w, pat, rep)
  {
    assert u + pat + w == u + (pat + w);
    ReplacePrefix(u, pat + w, pat, rep);
    assert (pat + w)[|pat|..] == w;
  }

  /** The first `]` of `s`, provided no newline comes before it: the lazy
      `.*?` extends one character at a time, stops at the first `]`, and `.`
      does not match a newline. */
  function CloseAt(s: string): (m: Option<nat>)
    ensures m.Some? ==>
      && m.value < |s| && s[m.value] == ']'
      && (forall k :: 0 <= k < m.value ==> s[k] != ']' && s[k] != '\n')
    ensures m.None? ==> NewlineBeforeEachClose(s)
    decreases |s|
  {
    if s == [] then None
    else if s[0] == ']' then Some(0)
    else if s[0] == '\n' then None
    else
      match CloseAt(s[1..])
      case Some(j) => Some(j + 1)
      case None =>
        assert forall j :: 1 <= j < |s| ==> s[j] == s[1..][j - 1];
        None
  }

  /** Every `]` of `s` has a newline somewhere before it. */
  predicate NewlineBeforeEachClose(s: string) {
    forall j :: 0 <= j < |s| && s[j] == ']' ==> exists k :: 0 <= k < j && s[k] == '\n'
  }

  /** The match of `\[.*?\]` anchored at the start of `s`, as its length. */
  function BracketMatch(s: string): (m: Option<nat>)
    ensures m.Some? ==> 2 <= m.value <= |s| && s[0] == '[' && s[m.value - 1] == ']'
  {
    if s == [] || s[0] != '[' then None
    else
      match CloseAt(s[1..])
      case Some(j) => Some(j + 2)
      case None => None
  }

  /** `re.sub(r"\[.*?\]", "", text)`: delete each match, scanning left to right. */
  function RemoveBrackets(s: string): (r: string)
    ensures |r| <= |s|
    ensures '[' !in s ==> r == s
    decreases |s|
  {
    if s == [] then []
    else
      match BracketMatch(s)
      case Some(n) => RemoveBrackets(s[n..])
      case None =>
        assert '[' !in s ==> '[' !in s[1..];
        [s[0]] + RemoveBrackets(s[1..])
  }

  /** A match of `\[.*?\]` begins at index `i` of `s`. */
  predicate HasBracketAt(s: string, i: int) {
    0 <= i < |s| && BracketMatch(s[i..]).Some?
  }

  /** Text in which no match begins is copied unchanged; a `[` there that
      closes nowhere is kept like any other character. */
  lemma {:induction false} RemoveBracketsPrefix(u: string, v: string)
    requires forall i :: 0 <= i < |u| ==> !HasBracketAt(u + v, i)
    ensures RemoveBrackets(u + v) == u + RemoveBrackets(v)
    decreases |u|
  {
    if u == [] {
      assert u + v == v;
    } else {
      var s := u + v;
      assert s[0..] == s;
      assert !HasBracketAt(s, 0);
      forall i | 0 <= i < |u[1..]| ensures !HasBracketAt(u[1..] + v, i) {
        BracketShift(u, v, i);
      }
      RemoveBracketsPrefix(u[1..], v);
      RemoveBracketsCopyStep(u, v);
    }
  }

  /** A match in `u[1..] + v` is a match one place further on in `u + v`. */
  lemma BracketShift(u: string, v: string, i: nat)
    requires u != [] && i < |u| - 1
    ensures HasBracketAt(u[1..] + v, i) <==> HasBracketAt(u + v, i + 1)
  {
    ConcatSlices(u, v, 1);
    assert (u[1..] + v)[i..] == (u + v)[i + 1..];
  }

  /** The step of `RemoveBracketsPrefix`: a first character that starts no
      match is copied. */
  lemma RemoveBracketsCopyStep(u: string, v: string)
    requires u != [] && BracketMatch(u + v).None?
    requires RemoveBrackets(u[1..] + v) == u[1..] + RemoveBrackets(v)
    ensures RemoveBrackets(u + v) == u + RemoveBrackets(v)
  {
    ConcatSlices(u, v, 1);
    RemoveBracketsCons(u + v);
    ConsAssoc(u[0], u[1..], RemoveBrackets(v));
    ConsTail(u);
  }

  /** A first character that starts no match is copied. */
  lemma RemoveBracketsCons(s: string)
    requires s != [] && BracketMatch(s).None?
    ensures RemoveBrackets(s) == [s[0]] + RemoveBrackets(s[1..])
  {
  }

  /** The leftmost bracketed span is deleted, the text in front of it is kept,
      and the scan carries on after it. */
  lemma RemoveBracketsFirst(u: string, v: string, n: nat)
    requires forall i :: 0 <= i < |u| ==> !HasBracketAt(u + v, i)
    requires BracketMatch(v) == Some(n)
    ensures RemoveBrackets(u + v) == u + RemoveBrackets(v[n..])
  {
    RemoveBracketsPrefix(u, v);
  }

  /** The unmatched-`[` case: in `"[\n[a]b"` the first `[` is kept and the
      span `[a]` is deleted. */
  lemma RemoveBracketsUnmatchedOpen()
    ensures RemoveBrackets("[\n[a]b") == "[\nb"
  {
    var u, v := "[\n", "[a]b";
    assert u + v == "[\n[a]b";
    assert BracketMatch(v) == Some(3);
    forall i | 0 <= i < |u| ensures !HasBracketAt(u + v, i) {
      assert (u + v)[i..][1..] == (u + v)[i + 1..];
    }
    RemoveBracketsFirst(u, v, 3);
    assert v[3..] == "b";
  }

  /** Bracket removal leaves the text unchanged exactly when no span matches
      anywhere in it. */
  lemma {:induction false} RemoveBracketsFixedIff(s: string)
    ensures RemoveBrackets(s) == s <==> forall i :: 0 <= i < |s| ==> !HasBracketAt(s, i)
    decreases |s|
  {
    if s != [] {
      assert s[0..] == s;
      assert forall i :: 1 <= i < |s| ==> (HasBracketAt(s, i) <==> HasBracketAt(s[1..], i - 1)) by {
        forall i | 1 <= i < |s| ensures HasBracketAt(s, i) <==> HasBracketAt(s[1..], i - 1) {
          assert s[1..][i - 1..] == s[i..];
        }
      }
      RemoveBracketsFixedIff(s[1..]);
      match BracketMatch(s)
      case Some(n) =>
        assert RemoveBrackets(s) == RemoveBrackets(s[n..]);
        assert |RemoveBrackets(s)| < |s|;
        assert HasBracketAt(s, 0);
      case None =>
        var t := RemoveBrackets(s[1..]);
        assert RemoveBrackets(s) == [s[0]] + t;
        assert !HasBracketAt(s, 0);
        if forall i :: 0 <= i < |s[1..]| ==> !HasBracketAt(s[1..], i) {
          forall i | 0 <= i < |s| ensures !HasBracketAt(s, i) {
            if i > 0 {
              assert !HasBracketAt(s[1..], i - 1);
            }
          }
        }
        if forall i :: 0 <= i < |s| ==> !HasBracketAt(s, i) {
          forall i | 0 <= i < |s[1..]| ensures !HasBracketAt(s[1..], i) {
            assert !HasBracketAt(s, i + 1);
          }
        }
        assert [s[0]] + t == s <==> t == s[1..] by {
          if [s[0]] + t == s {
            assert t == ([s[0]] + t)[1..];
          }
        }
    }
  }

  /** No `[` is followed by a `]` without a newline between them. */
  predicate NoBracketSpan(s: string) {
    forall i, j :: 0 <= i < j < |s| && s[i] == '[' && s[j] == ']' ==>
      exists k :: i < k < j && s[k] == '\n'
  }

  /** Bracket removal keeps a newline in front of every `]` when there was one. */
  lemma {:induction false} RemoveBracketsKeepsNewlineBefore(s: string)
    requires NewlineBeforeEachClose(s)
    ensures NewlineBeforeEachClose(RemoveBrackets(s))
    decreases |s|
  {
    if s != [] {
      assert s[0] != ']';
      assert BracketMatch(s).None?;
      var t := RemoveBrackets(s[1..]);
      var r := [s[0]] + t;
      assert forall j :: 1 <= j < |r| ==> r[j] == t[j - 1];
      if s[0] == '\n' {
        assert r[0] == '\n';
      } else {
        assert NewlineBeforeEachClose(s[1..]) by {
          forall j | 0 <= j < |s[1..]| && s[1..][j] == ']'
            ensures exists k :: 0 <= k < j && s[1..][k] == '\n'
          {
            assert s[j + 1] == ']';
            var k :| 0 <= k < j + 1 && s[k] == '\n';
            assert s[1..][k - 1] == '\n';
          }
        }
        RemoveBracketsKeepsNewlineBefore(s[1..]);
        forall j | 0 <= j < |r| && r[j] == ']'
          ensures exists k :: 0 <= k < j && r[k] == '\n'
        {
          var k :| 0 <= k < j - 1 && t[k] == '\n';
          assert r[k + 1] == '\n';
        }
      }
    }
  }

  /** After bracket removal no `[` is followed by a `]` unless a newline lies
      between them. */
  lemma {:induction false} RemoveBracketsNoSpan(s: string)
    ensures NoBracketSpan(RemoveBrackets(s))
    decreases |s|
  {
    if s != [] {
      match BracketMatch(s)
      case Some(n) =>
        RemoveBracketsNoSpan(s[n..]);
      case None =>
        RemoveBracketsNoSpan(s[1..]);
        var t := RemoveBrackets(s[1..]);
        var r := [s[0]] + t;
        assert forall j :: 1 <= j < |r| ==> r[j] == t[j - 1];
        if s[0] == '[' {
          assert CloseAt(s[1..]).None?;
          RemoveBracketsKeepsNewlineBefore(s[1..]);
        }
        forall i, j | 0 <= i < j < |r| && r[i] == '[' && r[j] == ']'
          ensures exists k :: i < k < j && r[k] == '\n'
        {
          if i == 0 {
            var k :| 0 <= k < j - 1 && t[k] == '\n';
            assert r[k + 1] == '\n';
          } else {
            var k :| i - 1 < k < j - 1 && t[k] == '\n';
            assert r[k + 1] == '\n';
          }
        }
    }
  }

  /** `hellaswag_preprocess(text)`. */
  function Preprocess(text: string): (r: string)
    ensures |r| <= |text|
  {
    var t := Strip(text);
    var titled := Replace(t, " [title]", ". ");
    var unbracketed := RemoveBrackets(titled);
    Replace(unbracketed, "  ", " ")
  }

  /** Text whose stripped form has no `[` and no double space comes out as
      that stripped form. */
  lemma PreprocessPlain(text: string)
    requires '[' !in Strip(text)
    requires !Contains(Strip(text), "  ")
    ensures Preprocess(text) == Strip(text)
  {
    var t := Strip(text);
    ContainsIffOccurs(t, " [title]");
    assert forall i :: OccursAt(t, " [title]", i) ==> t[i + 1] == t[i..i + 8][1] == '[';
  }
}

=== FILE: normalizer.dfy ===
/**
  `normalize_answer`: the standard pipeline (lower-case, drop punctuation,
  blank out the articles, collapse whitespace) and the multiple-choice mode.
 */
module Normalizer {
  import opened PyText
  import opened Choice

  /** `''.join(ch for ch in text if ch not in string.punctuation)`: every
      other character is kept, as often as it occurs. */
  function RemovePunc(s: string): (r: string)
    ensures forall c :: multiset(r)[c] == if IsPunct(c) then 0 else multiset(s)[c]
    ensures forall c :: c in r <==> c in s && !IsPunct(c)
    ensures |r| <= |s|
    decreases |s|
  {
    if s == [] then []
    else
      assert s == [s[0]] + s[1..];
      assert forall c :: c in s <==> c == s[0] || c in s[1..];
      (if IsPunct(s[0]) then [] else [s[0]]) + RemovePunc(s[1..])
  }

  /** Punctuation removal works piecewise, so it keeps the order of what it keeps. */
  lemma {:induction false} RemovePuncConcat(a: string, b: string)
    ensures RemovePunc(a + b) == RemovePunc(a) + RemovePunc(b)
    decreases |a|
  {
    if a != [] {
      RemovePuncConcat(a[1..], b);
      RemovePuncConcatStep(a, b);
    } else {
      LeftEmpty(a, b);
    }
  }

  /** The step of `RemovePuncConcat`: the first character is decided alone. */
  lemma RemovePuncConcatStep(a: string, b: string)
    requires a != []
    requires RemovePunc(a[1..] + b) == RemovePunc(a[1..]) + RemovePunc(b)
    ensures RemovePunc(a + b) == RemovePunc(a) + RemovePunc(b)
  {
    ConcatSlices(a, b, 1);
    var h := if IsPunct(a[0]) then [] else [a[0]];
    assert RemovePunc(a + b) == h + RemovePunc(a[1..] + b);
    assert RemovePunc(a) == h + RemovePunc(a[1..]);
    SeqAssoc(h, RemovePunc(a[1..]), RemovePunc(b));
  }

  /** Dropping punctuation changes nothing exactly when there is none. */
  lemma RemovePuncFixedIff(s: string)
    ensures RemovePunc(s) == s <==> forall i :: 0 <= i < |s| ==> !IsPunct(s[i])
  {
    if forall i :: 0 <= i < |s| ==> !IsPunct(s[i]) {
      RemovePuncNoPunct(s);
    } else {
      var i :| 0 <= i < |s| && IsPunct(s[i]);
      assert s[i] in s;
    }
  }

  /** A string without punctuation passes through unchanged. */
  lemma {:induction false} RemovePuncNoPunct(s: string)
    requires forall i :: 0 <= i < |s| ==> !IsPunct(s[i])
    ensures RemovePunc(s) == s
    decreases |s|
  {
    if s != [] {
      assert forall i :: 1 <= i < |s| ==> s[i] == s[1..][i - 1];
      RemovePuncNoPunct(s[1..]);
      assert RemovePunc(s) == [s[0]] + RemovePunc(s[1..]);
      ConsTail(s);
    }
  }

  predicate IsArticle(w: string) {
    w == "a" || w == "an" || w == "the"
  }

  /** Length of the maximal leading run of word characters. */
  function WordLength(s: string): (n: nat)
    ensures n <= |s|
    ensures forall i :: 0 <= i < n ==> IsWordChar(s[i])
    ensures n < |s| ==> !IsWordChar(s[n])
    decreases |s|
  {
    if s != [] && IsWordChar(s[0]) then 1 + WordLength(s[1..]) else 0
  }

  function WordRun(s: string): string {
    s[..WordLength(s)]
  }

  /** Whether `\b(a|an|the)\b` matches at the start of `s`, where `afterWord`
      tells whether the character before it is a word character. The leading
      `\b` needs a word character here and none before; each alternative
      then needs `\b` right after it, so the match is the whole word run. */
  predicate ArticleAt(s: string, afterWord: bool) {
    !afterWord && IsArticle(WordRun(s))
  }

  /** `re.sub(r'\b(a|an|the)\b', ' ', text)` scanning from the left, carrying
      whether the previous character of the ORIGINAL text was a word character
      (the regex tests `\b` against the input, not against the output). */
  function RemoveArticlesFrom(s: string, afterWord: bool): (r: string)
    ensures forall c :: c in r ==> c in s || c == ' '
    ensures |r| <= |s|
    decreases |s|
  {
    if s == [] then []
    else if ArticleAt(s, afterWord) then
      var n := WordLength(s);
      assert forall c :: c in s[n..] ==> c in s;
      " " + RemoveArticlesFrom(s[n..], true)
    else
      assert forall c :: c in s[1..] ==> c in s;
      [s[0]] + RemoveArticlesFrom(s[1..], IsWordChar(s[0]))
  }

  function RemoveArticles(s: string): string {
    RemoveArticlesFrom(s, false)
  }

  /** No article match begins anywhere in `s` (scanning state as above). */
  predicate NoArticleFrom(s: string, afterWord: bool)
    decreases |s|
  {
    s == [] || (!ArticleAt(s, afterWord) && NoArticleFrom(s[1..], IsWordChar(s[0])))
  }

  /** Removing articles changes nothing exactly when no article matches. */
  lemma {:induction false} RemoveArticlesFixedIff(s: string, afterWord: bool)
    ensures RemoveArticlesFrom(s, afterWord) == s <==> NoArticleFrom(s, afterWord)
    decreases |s|
  {
    if s != [] {
      RemoveArticlesFixedIff(s[1..], IsWordChar(s[0]));
      if ArticleAt(s, afterWord) {
        assert WordLength(s) > 0;
        assert RemoveArticlesFrom(s, afterWord)[0] == ' ' != s[0];
      } else {
        var r := RemoveArticlesFrom(s[1..], IsWordChar(s[0]));
        assert [s[0]] + r == s <==> r == s[1..] by {
          if [s[0]] + r == s {
            assert r == ([s[0]] + r)[1..];
          }
        }
      }
    }
  }

  /** A string that is empty or starts with a non-word character is free of
      article matches regardless of the scanning state. */
  lemma NoArticleFlag(s: string)
    requires s == [] || !IsWordChar(s[0])
    ensures NoArticleFrom(s, true) == NoArticleFrom(s, false)
  {
  }

  /** A word run cannot extend past a non-word character. */
  lemma {:induction false} WordLengthConcat(a: string, b: string)
    requires b == [] || !IsWordChar(b[0])
    ensures WordLength(a + b) == WordLength(a)
    ensures WordRun(a + b) == WordRun(a)
    decreases |a|
  {
    if a == [] {
      assert a + b == b;
    } else {
      assert (a + b)[1..] == a[1..] + b;
      WordLengthConcat(a[1..], b);
    }
  }

  /** A word character in front extends the word run by one. */
  lemma WordRunCons(c: char, x: string)
    requires IsWordChar(c)
    ensures WordRun([c] + x) == [c] + WordRun(x)
  {
  }

  /** Scanning never rewrites the word run it starts in the middle of, nor one
      that is not an article. */
  lemma {:induction false} WordRunKept(s: string, afterWord: bool)
    requires !ArticleAt(s, afterWord)
    ensures WordRun(RemoveArticlesFrom(s, afterWord)) == WordRun(s)
    decreases |s|
  {
    if s != [] {
      var t := RemoveArticlesFrom(s[1..], IsWordChar(s[0]));
      assert RemoveArticlesFrom(s, afterWord) == [s[0]] + t;
      if IsWordChar(s[0]) {
        WordRunKept(s[1..], true);
        WordRunCons(s[0], t);
        WordRunCons(s[0], s[1..]);
        assert [s[0]] + s[1..] == s;
      } else {
        assert WordLength([s[0]] + t) == 0;
        assert WordLength(s) == 0;
      }
    }
  }

  /** The result of removing articles contains no further article match. */
  lemma {:induction false} RemoveArticlesClean(s: string, afterWord: bool)
    ensures NoArticleFrom(RemoveArticlesFrom(s, afterWord), afterWord)
    decreases |s|
  {
    if s == [] {
    } else if ArticleAt(s, afterWord) {
      var t := s[WordLength(s)..];
      var x := RemoveArticlesFrom(t, true);
      RemoveArticlesClean(t, true);
      if t != [] {
        assert x[0] == t[0];
      }
      NoArticleFlag(x);
      var r := " " + x;
      assert r[1..] == x;
      assert WordLength(r) == 0;
    } else {
      RemoveArticlesClean(s[1..], IsWordChar(s[0]));
      WordRunKept(s, afterWord);
      var r := RemoveArticlesFrom(s, afterWord);
      assert r[1..] == RemoveArticlesFrom(s[1..], IsWordChar(s[0]));
    }
  }

  /** Article matches in `a + b` are those of `a` and of `b`, when `b` starts
      at a word boundary. */
  lemma {:induction false} NoArticleConcat(a: string, b: string, afterWord: bool)
    requires b == [] || !IsWordChar(b[0])
    ensures NoArticleFrom(a + b, afterWord) == (NoArticleFrom(a, afterWord) && NoArticleFrom(b, false))
    decreases |a|
  {
    if a == [] {
      assert a + b == b;
      NoArticleFlag(b);
    } else {
      assert (a + b)[1..] == a[1..] + b;
      WordLengthConcat(a, b);
      NoArticleConcat(a[1..], b, IsWordChar(a[0]));
    }
  }

  /** Every token of `split()` is free of article matches when the string is. */
  lemma {:induction false} SplitNoArticle(s: string)
    requires NoArticleFrom(s, false)
    ensures forall k :: 0 <= k < |Split(s)| ==> NoArticleFrom(Split(s)[k], false)
    decreases |s|
  {
    if s != [] {
      if IsSpace(s[0]) {
        SplitNoArticle(s[1..]);
      } else {
        var n := TokenLength(s);
        assert s == s[..n] + s[n..];
        NoArticleConcat(s[..n], s[n..], false);
        SplitNoArticle(s[n..]);
      }
    }
  }

  /** Joining article-free parts with single spaces is article-free. */
  lemma {:induction false} JoinNoArticle(ws: seq<string>)
    requires forall k :: 0 <= k < |ws| ==> NoArticleFrom(ws[k], false)
    ensures NoArticleFrom(Join(ws), false)
    decreases |ws|
  {
    if |ws| > 1 {
      JoinNoArticle(ws[1..]);
      var j := Join(ws[1..]);
      assert Join(ws) == ws[0] + (" " + j);
      NoArticleConcat(ws[0], " " + j, false);
      assert (" " + j)[1..] == j;
      assert WordLength(" " + j) == 0;
    }
  }

  /** Collapsing whitespace keeps a string free of article matches. */
  lemma CollapseSpacesNoArticle(s: string)
    requires NoArticleFrom(s, false)
    ensures NoArticleFrom(CollapseSpaces(s), false)
  {
    SplitNoArticle(s);
    JoinNoArticle(Split(s));
  }

  /** The tokens that are not `a`, `an` or `the`, in order: what the article
      substitution amounts to on whitespace-separated words. */
  function FilterNonArticles(ws: seq<string>): seq<string>
  {
    if ws == [] then []
    else (if IsArticle(ws[0]) then [] else [ws[0]]) + FilterNonArticles(ws[1..])
  }

  /** Text made of word characters and whitespace only, where every maximal
      word run is a whole `split()` token. */
  predicate WordsAndSpaces(s: string) {
    forall i :: 0 <= i < |s| ==> IsWordChar(s[i]) || IsSpace(s[i])
  }

  /** At a non-word character the scanning state makes no difference. */
  lemma RemoveArticlesFlag(s: string)
    requires s == [] || !IsWordChar(s[0])
    ensures RemoveArticlesFrom(s, true) == RemoveArticlesFrom(s, false)
    ensures s != [] ==> RemoveArticlesFrom(s, false)[0] == s[0]
  {
    if s != [] {
      assert WordLength(s) == 0;
    }
  }

  /** The rest of a word, scanned from its middle, is copied unchanged. */
  lemma {:induction false} RemoveArticlesWordTail(w: string, b: string)
    requires forall i :: 0 <= i < |w| ==> IsWordChar(w[i])
    ensures RemoveArticlesFrom(w + b, true) == w + RemoveArticlesFrom(b, true)
    decreases |w|
  {
    if w == [] {
      assert w + b == b;
    } else {
      RemoveArticlesWordTail(w[1..], b);
      RemoveArticlesWordTailStep(w, b);
    }
  }

  /** The step of `RemoveArticlesWordTail`: inside a word nothing matches. */
  lemma RemoveArticlesWordTailStep(w: string, b: string)
    requires w != [] && IsWordChar(w[0])
    requires RemoveArticlesFrom(w[1..] + b, true) == w[1..] + RemoveArticlesFrom(b, true)
    ensures RemoveArticlesFrom(w + b, true) == w + RemoveArticlesFrom(b, true)
  {
    ConcatSlices(w, b, 1);
    assert RemoveArticlesFrom(w + b, true) == [w[0]] + RemoveArticlesFrom(w[1..] + b, true);
    ConsAssoc(w[0], w[1..], RemoveArticlesFrom(b, true));
    ConsTail(w);
  }

  /** The step of `RemoveArticlesTokens` at a leading whitespace character. */
  lemma RemoveArticlesTokensSpaceStep(s: string)
    requires s != [] && IsSpace(s[0])
    requires Split(RemoveArticles(s[1..])) == FilterNonArticles(Split(s[1..]))
    ensures Split(RemoveArticles(s)) == FilterNonArticles(Split(s))
  {
    assert WordLength(s) == 0;
    var x := RemoveArticles(s[1..]);
    assert RemoveArticles(s) == [s[0]] + x;
    assert ([s[0]] + x)[1..] == x;
    SplitSpaceHead([s[0]] + x);
    SplitSpaceHead(s);
  }

  /** On words and whitespace, a leading word run is the first token and the
      rest starts with whitespace. */
  lemma SplitWordHead(s: string)
    requires s != [] && IsWordChar(s[0]) && WordsAndSpaces(s)
    ensures IsToken(WordRun(s))
    ensures s[WordLength(s)..] == [] || IsSpace(s[WordLength(s)..][0])
    ensures Split(s) == [WordRun(s)] + Split(s[WordLength(s)..])
  {
    var n := WordLength(s);
    var w := s[..n];
    assert s == w + s[n..];
    assert IsToken(w);
    SplitToken(w);
    SplitConcat(w, s[n..]);
  }

  /** The scan at a leading word: an article becomes one space, any other
      word is copied, and the scan resumes after the word. */
  lemma ScanWordHead(s: string)
    requires s != [] && IsWordChar(s[0])
    requires s[WordLength(s)..] == [] || !IsWordChar(s[WordLength(s)..][0])
    ensures RemoveArticles(s) ==
      (if IsArticle(WordRun(s)) then " " else WordRun(s)) + RemoveArticles(s[WordLength(s)..])
  {
    RemoveArticlesFlag(s[WordLength(s)..]);
    if !IsArticle(WordRun(s)) {
      ScanKeptWord(s);
    }
  }

  /** A leading word that is not an article is copied, and the scan resumes
      after it with the previous character a word character. */
  lemma ScanKeptWord(s: string)
    requires s != [] && IsWordChar(s[0]) && !IsArticle(WordRun(s))
    ensures RemoveArticles(s) == WordRun(s) + RemoveArticlesFrom(s[WordLength(s)..], true)
  {
    var n := WordLength(s);
    var w := s[..n];
    var rest := s[n..];
    var y := RemoveArticlesFrom(rest, true);
    assert RemoveArticles(s) == [s[0]] + RemoveArticlesFrom(s[1..], true);
    assert s[1..] == w[1..] + rest;
    RemoveArticlesWordTail(w[1..], rest);
    ConsAssoc(s[0], w[1..], y);
    assert [s[0]] + w[1..] == w;
  }

  /** Filtering a token list one token at a time. */
  lemma FilterNonArticlesCons(w: string, ws: seq<string>)
    ensures FilterNonArticles([w] + ws) == (if IsArticle(w) then [] else [w]) + FilterNonArticles(ws)
  {
    assert ([w] + ws)[1..] == ws;
  }

  /** The step of `RemoveArticlesTokens` at a leading word. */
  lemma RemoveArticlesTokensWordStep(s: string)
    requires s != [] && IsWordChar(s[0]) && WordsAndSpaces(s)
    requires Split(RemoveArticles(s[WordLength(s)..])) == FilterNonArticles(Split(s[WordLength(s)..]))
    ensures Split(RemoveArticles(s)) == FilterNonArticles(Split(s))
  {
    var w := WordRun(s);
    var rest := s[WordLength(s)..];
    var x := RemoveArticles(rest);
    SplitWordHead(s);
    ScanWordHead(s);
    FilterNonArticlesCons(w, Split(rest));
    RemoveArticlesFlag(rest);
    var h := if IsArticle(w) then " " else w;
    SplitConcat(h, x);
    if IsArticle(w) {
      SplitSpaceHead(h);
    } else {
      SplitToken(w);
    }
  }

  /** On text of words and whitespace, the article substitution removes
      exactly the tokens `a`, `an` and `the` and keeps every other token, in
      order. */
  lemma {:induction false} RemoveArticlesTokens(s: string)
    requires WordsAndSpaces(s)
    ensures Split(RemoveArticles(s)) == FilterNonArticles(Split(s))
    decreases |s|
  {
    if s != [] {
      if IsSpace(s[0]) {
        RemoveArticlesTokens(s[1..]);
        RemoveArticlesTokensSpaceStep(s);
      } else {
        RemoveArticlesTokens(s[WordLength(s)..]);
        RemoveArticlesTokensWordStep(s);
      }
    }
  }

  /** The standard pipeline, in the source's order. */
  function NormalizeStandard(s: string): (r: string)
    ensures IsCollapsed(r)
  {
    CollapseSpacesShape(RemoveArticles(RemovePunc(Lower(s))));
    CollapseSpaces(RemoveArticles(RemovePunc(Lower(s))))
  }

  /** `normalize_answer(s, normal_method)`: `"mc"` selects the multiple-choice
      extraction, every other value the standard pipeline. */
  function NormalizeAnswer(s: string, normalMethod: string): (r: string)
    ensures normalMethod == "mc" ==> r == [] || IsChoiceToken(r)
    ensures normalMethod != "mc" ==> IsCollapsed(r)
  {
    if normalMethod == "mc" then McRemove(s) else NormalizeStandard(s)
  }

  /** The shape of every standard-mode result. */
  predicate IsNormalized(n: string) {
    && (forall i :: 0 <= i < |n| ==> !IsUpper(n[i]) && !IsPunct(n[i]))
    && IsCollapsed(n)
    && NoArticleFrom(n, false)
  }

  /** A standard-mode result has no upper-case letter and no punctuation, no
      whitespace but single inner spaces, and no `\b`-bounded article. */
  lemma NormalizeStandardShape(s: string)
    ensures IsNormalized(NormalizeStandard(s))
  {
    var l := Lower(s);
    LowerFixedIff(s);
    var p := RemovePunc(l);
    var a := RemoveArticles(p);
    RemoveArticlesClean(p, false);
    var n := CollapseSpaces(a);
    CollapseSpacesShape(a);
    CollapseSpacesNoArticle(a);
    forall i | 0 <= i < |n| ensures !IsUpper(n[i]) && !IsPunct(n[i]) {
      assert n[i] in n;
      if n[i] != ' ' {
        assert n[i] in a;
        assert n[i] in p;
        assert n[i] in l;
      }
    }
  }

  /** A standard-mode result splits into tokens none of which is `a`, `an` or
      `the`. */
  lemma NormalizedTokensNoArticle(s: string)
    ensures forall k :: 0 <= k < |Split(NormalizeStandard(s))| ==> !IsArticle(Split(NormalizeStandard(s))[k])
  {
    var n := NormalizeStandard(s);
    NormalizeStandardShape(s);
    SplitNoArticle(n);
    forall k | 0 <= k < |Split(n)| ensures !IsArticle(Split(n)[k]) {
      ArticleIsWordRun(Split(n)[k]);
    }
  }

  /** An article is a whole word run. */
  lemma ArticleIsWordRun(w: string)
    ensures IsArticle(w) ==> WordRun(w) == w
  {
  }

  /** Every string of the normalised shape is a fixed point of the pipeline. */
  lemma NormalizedIsFixed(n: string)
    requires IsNormalized(n)
    ensures NormalizeStandard(n) == n
  {
    LowerFixedIff(n);
    RemovePuncFixedIff(n);
    RemoveArticlesFixedIff(n, false);
    CollapseSpacesFixedIff(n);
  }

  /** Standard normalisation is idempotent. */
  lemma NormalizeIdempotent(s: string)
    ensures NormalizeStandard(NormalizeStandard(s)) == NormalizeStandard(s)
  {
    NormalizeStandardShape(s);
    NormalizedIsFixed(NormalizeStandard(s));
  }

  /** The fixed points of standard normalisation are exactly the strings of
      the normalised shape. */
  lemma NormalizeFixedIff(n: string)
    ensures NormalizeStandard(n) == n <==> IsNormalized(n)
  {
    NormalizeStandardShape(n);
    if IsNormalized(n) {
      NormalizedIsFixed(n);
    }
  }

  /** Text made of word characters, whitespace and `string.punctuation`:
      printable ASCII and the ASCII whitespace. */
  predicate IsPlainText(s: string) {
    forall i :: 0 <= i < |s| ==> IsWordChar(s[i]) || IsSpace(s[i]) || IsPunct(s[i])
  }

  /** Lower-casing keeps every character's class. */
  lemma LowerPlainText(s: string)
    requires IsPlainText(s)
    ensures IsPlainText(Lower(s))
  {
  }

  /** Dropping punctuation from plain text leaves words and whitespace. */
  lemma RemovePuncPlainText(s: string)
    requires IsPlainText(s)
    ensures WordsAndSpaces(RemovePunc(s))
  {
    var r := RemovePunc(s);
    forall i | 0 <= i < |r| ensures IsWordChar(r[i]) || IsSpace(r[i]) {
      assert r[i] in r;
      var j :| 0 <= j < |s| && s[j] == r[i];
    }
  }

  /** On plain text the standard result's tokens are the lower-cased,
      punctuation-free tokens of the input other than `a`, `an` and `the`,
      in their original order. */
  lemma NormalizeStandardTokens(s: string)
    requires IsPlainText(s)
    ensures Split(NormalizeStandard(s)) == FilterNonArticles(Split(RemovePunc(Lower(s))))
  {
    var p := RemovePunc(Lower(s));
    LowerPlainText(s);
    RemovePuncPlainText(Lower(s));
    RemoveArticlesTokens(p);
    SplitJoin(Split(RemoveArticles(p)));
  }
}

=== FILE: pytext.dfy ===
/** A small `Option` type used by the regex matchers. */
module Wrappers {

  datatype Option<+T> = None | Some(value: T)
}

/**
  ASCII models of the Python `str` primitives the scorer is built from:
  character classes, `lower`, `split`, `' '.join`, `strip` and the `in`
  substring test. Every modelled primitive is total; characters outside ASCII are
  treated as uncased, non-word, non-space and non-punctuation.
 */
module PyText {

  /** `str.isspace` on ASCII: tab, LF, VT, FF, CR, the separators 0x1C-0x1F and
      the space. `split()`, `strip()` and the regex class `\s` all use this set. */
  predicate IsSpace(c: char) {
    c == ' ' || 9 <= c as int <= 13 || 28 <= c as int <= 31
  }

  predicate IsUpper(c: char) { 'A' <= c <= 'Z' }

  predicate IsLetter(c: char) { 'A' <= c <= 'Z' || 'a' <= c <= 'z' }

  predicate IsDigit(c: char) { '0' <= c <= '9' }

  /** The regex word class `\w` on ASCII, which decides where `\b` holds. */
  predicate IsWordChar(c: char) { IsLetter(c) || IsDigit(c) || c == '_' }

  /** Membership in `string.punctuation`: the 32 printable ASCII characters
      that are neither letters, digits nor the space. */
  predicate IsPunct(c: char) {
    || '!' <= c <= '/'
    || ':' <= c <= '@'
    || '[' <= c <= '`'
    || '{' <= c <= '~'
  }

  function LowerChar(c: char): (d: char)
    ensures !IsUpper(d)
    ensures IsUpper(c) ==> d as int == c as int + 32
    ensures !IsUpper(c) ==> d == c
  {
    if IsUpper(c) then (c as int + 32) as char else c
  }

  /** `str.lower`. */
  function Lower(s: string): (r: string)
    ensures |r| == |s|
    ensures forall i :: 0 <= i < |s| ==> r[i] == LowerChar(s[i])
  {
    seq(|s|, i requires 0 <= i < |s| => LowerChar(s[i]))
  }

  /** Lower-casing changes nothing exactly when there is no upper-case letter,
      and its result never contains one. */
  lemma LowerFixedIff(s: string)
    ensures Lower(s) == s <==> forall i :: 0 <= i < |s| ==> !IsUpper(s[i])
    ensures forall i :: 0 <= i < |s| ==> !IsUpper(Lower(s)[i])
  {
    if Lower(s) == s {
      forall i | 0 <= i < |s| ensures !IsUpper(s[i]) {
        assert s[i] == LowerChar(s[i]);
      }
    }
  }

  /** A token as `split()` produces it: non-empty, with no whitespace. */
  predicate IsToken(w: string) {
    |w| > 0 && forall i :: 0 <= i < |w| ==> !IsSpace(w[i])
  }

  /** Length of the maximal leading run of non-whitespace characters. */
  function TokenLength(s: string): (n: nat)
    ensures n <= |s|
    ensures forall i :: 0 <= i < n ==> !IsSpace(s[i])
    ensures n < |s| ==> IsSpace(s[n])
    decreases |s|
  {
    if s == [] || IsSpace(s[0]) then 0 else 1 + TokenLength(s[1..])
  }

  /** Every character of `s` is whitespace. */
  predicate AllSpace(s: string) {
    forall i :: 0 <= i < |s| ==> IsSpace(s[i])
  }

  /** `str.split()` with no separator: the maximal runs of non-whitespace, in order. */
  function Split(s: string): (ws: seq<string>)
    ensures forall k :: 0 <= k < |ws| ==> IsToken(ws[k])
    ensures forall k, c :: 0 <= k < |ws| && c in ws[k] ==> c in s
    ensures ws == [] <==> AllSpace(s)
    decreases |s|
  {
    if s == [] then []
    else if IsSpace(s[0]) then
      assert forall c :: c in s[1..] ==> c in s;
      assert AllSpace(s) <==> AllSpace(s[1..]) by {
        assert forall i :: 1 <= i < |s| ==> s[i] == s[1..][i - 1];
      }
      Split(s[1..])
    else
      var n := TokenLength(s);
      assert forall c :: c in s[..n] ==> c in s;
      assert forall c :: c in s[n..] ==> c in s;
      assert !AllSpace(s);
      [s[..n]] + Split(s[n..])
  }

  /** `' '.join(ws)`. */
  function Join(ws: seq<string>): string
  {
    if |ws| == 0 then []
    else if |ws| == 1 then ws[0]
    else ws[0] + " " + Join(ws[1..])
  }

  /** The whitespace shape of `' '.join(s.split())`: the only whitespace is the
      plain space, never at either end and never two in a row. */
  predicate IsCollapsed(n: string) {
    && (forall i :: 0 <= i < |n| && IsSpace(n[i]) ==> n[i] == ' ')
    && (|n| > 0 ==> n[0] != ' ' && n[|n| - 1] != ' ')
    && (forall i :: 0 <= i < |n| - 1 && n[i] == ' ' ==> n[i + 1] != ' ')
  }

  /** `' '.join(s.split())`. */
  function CollapseSpaces(s: string): string {
    Join(Split(s))
  }

  /** A token is its own `split()`. */
  lemma SplitToken(w: string)
    requires IsToken(w)
    ensures Split(w) == [w]
  {
    assert TokenLength(w) == |w|;
    assert w[..|w|] == w && w[|w|..] == [];
    assert Split(w) == [w[..|w|]] + Split(w[|w|..]);
  }

  /** The token length of `a + b` is that of `a` when the run stops inside
      `a` or `b` begins with whitespace. */
  lemma TokenLengthConcat(a: string, b: string)
    requires TokenLength(a) < |a| || b == [] || IsSpace(b[0])
    ensures TokenLength(a + b) == TokenLength(a)
  {
    var n := TokenLength(a);
    var s := a + b;
    assert forall i :: 0 <= i < n ==> s[i] == a[i];
    assert n < |s| ==> s[n] == if n < |a| then a[n] else b[0];
  }

  /** `split()` distributes over a concatenation cut at whitespace: when
      either part is empty, `a` ends in whitespace or `b` begins with it, the
      tokens of `a + b` are the tokens of `a` followed by those of `b`.
      With `SplitToken` and the all-whitespace case this fixes `split()` on
      every string. */
  lemma {:induction false} SplitConcat(a: string, b: string)
    requires a == [] || b == [] || IsSpace(a[|a| - 1]) || IsSpace(b[0])
    ensures Split(a + b) == Split(a) + Split(b)
    decreases |a|
  {
    if a == [] {
      assert a + b == b;
    } else if IsSpace(a[0]) {
      assert a[1..] == [] || a[1..][|a[1..]| - 1] == a[|a| - 1];
      SplitConcat(a[1..], b);
      SplitConcatSpaceStep(a, b);
    } else {
      var n := TokenLength(a);
      assert a[n..] == [] || a[n..][|a[n..]| - 1] == a[|a| - 1];
      SplitConcat(a[n..], b);
      SplitConcatTokenStep(a, b);
    }
  }

  /** The step of `SplitConcat` when `a` begins with whitespace. */
  lemma SplitConcatSpaceStep(a: string, b: string)
    requires a != [] && IsSpace(a[0])
    requires Split(a[1..] + b) == Split(a[1..]) + Split(b)
    ensures Split(a + b) == Split(a) + Split(b)
  {
    ConcatSlices(a, b, 1);
    SplitSpaceHead(a + b);
    SplitSpaceHead(a);
  }

  /** The step of `SplitConcat` when `a` begins with a token. */
  lemma SplitConcatTokenStep(a: string, b: string)
    requires a != [] && !IsSpace(a[0])
    requires TokenLength(a) < |a| || b == [] || IsSpace(b[0])
    requires Split(a[TokenLength(a)..] + b) == Split(a[TokenLength(a)..]) + Split(b)
    ensures Split(a + b) == Split(a) + Split(b)
  {
    var n := TokenLength(a);
    TokenLengthConcat(a, b);
    ConcatSlices(a, b, n);
    SplitTokenHead(a + b);
    SplitTokenHead(a);
    ConsAssoc(a[..n], Split(a[n..]), Split(b));
  }

  /** Sequence concatenation regroups (element in front). */
  lemma ConsAssoc<T>(x: T, ys: seq<T>, zs: seq<T>)
    ensures [x] + (ys + zs) == ([x] + ys) + zs
  {
  }

  /** Sequence concatenation regroups. */
  lemma SeqAssoc<T>(xs: seq<T>, ys: seq<T>, zs: seq<T>)
    ensures xs + (ys + zs) == (xs + ys) + zs
  {
  }

  /** The empty sequence is a left unit. */
  lemma LeftEmpty<T>(xs: seq<T>, ys: seq<T>)
    requires xs == []
    ensures xs + ys == ys
  {
  }

  /** A non-empty sequence is its head followed by its tail. */
  lemma ConsTail<T>(s: seq<T>)
    requires s != []
    ensures [s[0]] + s[1..] == s
  {
  }

  /** Cutting `a + b` inside `a`. */
  lemma ConcatSlices(a: string, b: string, n: nat)
    requires n <= |a|
    ensures (a + b)[..n] == a[..n]
    ensures (a + b)[n..] == a[n..] + b
    ensures n < |a| ==> (a + b)[n] == a[n]
  {
  }

  /** Leading whitespace does not change `split()`. */
  lemma SplitSpaceHead(s: string)
    requires s != [] && IsSpace(s[0])
    ensures Split(s) == Split(s[1..])
  {
  }

  /** `split()` of a string beginning with a token: that token, then the rest. */
  lemma SplitTokenHead(s: string)
    requires s != [] && !IsSpace(s[0])
    ensures Split(s) == [s[..TokenLength(s)]] + Split(s[TokenLength(s)..])
  {
  }

  /** Round trip: splitting the join of whitespace-free tokens gives them back. */
  lemma {:induction false} SplitJoin(ws: seq<string>)
    requires forall k :: 0 <= k < |ws| ==> IsToken(ws[k])
    ensures Split(Join(ws)) == ws
    decreases |ws|
  {
    if |ws| == 0 {
    } else if |ws| == 1 {
      SplitToken(ws[0]);
    } else {
      var j := Join(ws[1..]);
      var s := ws[0] + " " + j;
      assert s == ws[0] + (" " + j);
      TokenLengthConcat(ws[0], " " + j);
      assert TokenLength(ws[0]) == |ws[0]|;
      assert s[..|ws[0]|] == ws[0];
      assert s[|ws[0]|..] == " " + j;
      assert (" " + j)[1..] == j;
      SplitJoin(ws[1..]);
      assert Split(s) == [ws[0]] + Split(" " + j);
    }
  }

  /** Every character of a join is a space or a character of one of the parts. */
  lemma {:induction false} JoinChars(ws: seq<string>)
    ensures forall c :: c in Join(ws) ==> c == ' ' || exists k :: 0 <= k < |ws| && c in ws[k]
    decreases |ws|
  {
    if |ws| > 1 {
      JoinChars(ws[1..]);
      forall c | c in Join(ws)
        ensures c == ' ' || exists k :: 0 <= k < |ws| && c in ws[k]
      {
        if c in ws[0] {
        } else if c != ' ' {
          assert c in Join(ws[1..]);
          var k :| 0 <= k < |ws[1..]| && c in ws[1..][k];
          assert c in ws[k + 1];
        }
      }
    }
  }

  /** Joining non-empty whitespace-free tokens with single spaces yields a
      collapsed string that starts with the first token's first character. */
  lemma {:induction false} JoinCollapsed(ws: seq<string>)
    requires forall k :: 0 <= k < |ws| ==> IsToken(ws[k])
    ensures IsCollapsed(Join(ws))
    ensures |ws| > 0 ==> |Join(ws)| > 0 && Join(ws)[0] == ws[0][0]
    decreases |ws|
  {
    if |ws| > 1 {
      JoinCollapsed(ws[1..]);
      var w := ws[0];
      var j := Join(ws[1..]);
      var s := w + " " + j;
      assert |j| > 0 && j[0] == ws[1][0];
      assert forall i :: 0 <= i < |w| ==> s[i] == w[i] && !IsSpace(s[i]);
      assert s[|w|] == ' ';
      assert forall i :: |w| < i < |s| ==> s[i] == j[i - |w| - 1];
      assert s[|s| - 1] == j[|j| - 1];
    }
  }

  /** `' '.join(s.split())` always has the collapsed shape and only keeps the
      non-whitespace characters of `s` (plus plain spaces). */
  lemma CollapseSpacesShape(s: string)
    ensures IsCollapsed(CollapseSpaces(s))
    ensures forall c :: c in CollapseSpaces(s) ==> c == ' ' || (c in s && !IsSpace(c))
  {
    var ws := Split(s);
    JoinCollapsed(ws);
    JoinChars(ws);
    forall c | c in Join(ws) ensures c == ' ' || (c in s && !IsSpace(c)) {
      if c != ' ' {
        var k :| 0 <= k < |ws| && c in ws[k];
        var i :| 0 <= i < |ws[k]| && ws[k][i] == c;
      }
    }
  }

  /** What follows the first space of a collapsed string is again collapsed
      and starts with a non-whitespace character. */
  lemma CollapsedTail(n: string, w: nat)
    requires IsCollapsed(n)
    requires w < |n| && n[w] == ' '
    ensures |n[w + 1..]| > 0 && !IsSpace(n[w + 1..][0])
    ensures IsCollapsed(n[w + 1..])
  {
  }

  /** A collapsed string is unchanged by `' '.join(s.split())`. */
  lemma {:induction false} CollapsedFixed(n: string)
    requires IsCollapsed(n)
    ensures CollapseSpaces(n) == n
    decreases |n|
  {
    if n != [] {
      var w := TokenLength(n);
      SplitTokenHead(n);
      if w == |n| {
        assert n[..w] == n && n[w..] == [];
      } else {
        CollapsedTail(n, w);
        CollapsedFixed(n[w + 1..]);
        CollapsedFixedStep(n);
      }
    }
  }

  /** The step of `CollapsedFixed`: the first token, one space, and the
      collapsed rest. */
  lemma CollapsedFixedStep(n: string)
    requires IsCollapsed(n) && n != [] && TokenLength(n) < |n|
    requires CollapseSpaces(n[TokenLength(n) + 1..]) == n[TokenLength(n) + 1..]
    ensures CollapseSpaces(n) == n
  {
    var w := TokenLength(n);
    CollapsedTail(n, w);
    SplitTokenHead(n);
    SplitSpaceHead(n[w..]);
    CutAt(n, w);
    JoinCons(n[..w], Split(n[w + 1..]));
  }

  /** `s` around its character at index `w`. */
  lemma CutAt<T>(s: seq<T>, w: nat)
    requires w < |s|
    ensures s[w..][1..] == s[w + 1..]
    ensures s == s[..w] + [s[w]] + s[w + 1..]
  {
  }

  /** Joining a token in front of a non-empty list puts one space between. */
  lemma JoinCons(x: string, ts: seq<string>)
    requires ts != []
    ensures Join([x] + ts) == x + " " + Join(ts)
  {
    assert ([x] + ts)[1..] == ts;
  }

  /** `' '.join(s.split())` leaves a string unchanged exactly when it is collapsed. */
  lemma CollapseSpacesFixedIff(n: string)
    ensures CollapseSpaces(n) == n <==> IsCollapsed(n)
  {
    CollapseSpacesShape(n);
    if IsCollapsed(n) {
      CollapsedFixed(n);
    }
  }

  /** Python's `needle in hay` for strings. */
  predicate Contains(hay: string, needle: string)
    decreases |hay|
  {
    needle <= hay || (hay != [] && Contains(hay[1..], needle))
  }

  /** `needle` occurs in `hay` starting at index `i`. */
  predicate OccursAt(hay: string, needle: string, i: int) {
    0 <= i && i + |needle| <= |hay| && hay[i..i + |needle|] == needle
  }

  /** `Contains` holds exactly when `needle` occurs at some index of `hay`. */
  lemma {:induction false} ContainsIffOccurs(hay: string, needle: string)
    ensures Contains(hay, needle) <==> exists i :: OccursAt(hay, needle, i)
    decreases |hay|
  {
    if needle <= hay {
      assert OccursAt(hay, needle, 0);
    } else if hay == [] {
      assert forall i :: !OccursAt(hay, needle, i);
    } else {
      ContainsIffOccurs(hay[1..], needle);
      if Contains(hay[1..], needle) {
        var i :| OccursAt(hay[1..], needle, i);
        assert hay[1..][i..i + |needle|] == hay[i + 1..i + 1 + |needle|];
        assert OccursAt(hay, needle, i + 1);
      }
      if exists i :: OccursAt(hay, needle, i) {
        var i :| OccursAt(hay, needle, i);
        assert i != 0;
        assert hay[1..][i - 1..i - 1 + |needle|] == hay[i..i + |needle|];
        assert OccursAt(hay[1..], needle, i - 1);
      }
    }
  }

  /** The empty string is in every string, and every string is in itself. */
  lemma ContainsTrivial(s: string)
    ensures Contains(s, [])
    ensures Contains(s, s)
  {
  }

  /** Length of the maximal leading whitespace run. */
  function SpaceRun(s: string): (n: nat)
    ensures n <= |s|
    ensures forall i :: 0 <= i < n ==> IsSpace(s[i])
    ensures n < |s| ==> !IsSpace(s[n])
    decreases |s|
  {
    if s != [] && IsSpace(s[0]) then 1 + SpaceRun(s[1..]) else 0
  }

  /** Start of the maximal trailing whitespace run. */
  function TrailingSpaceStart(s: string): (n: nat)
    ensures n <= |s|
    ensures forall i :: n <= i < |s| ==> IsSpace(s[i])
    ensures n > 0 ==> !IsSpace(s[n - 1])
    decreases |s|
  {
    if s != [] && IsSpace(s[|s| - 1]) then TrailingSpaceStart(s[..|s| - 1]) else |s|
  }

  /** `r` is the slice of `s` at index `i` and everything of `s` outside the
      slice is whitespace. */
  predicate IsTrimmedSliceAt(s: string, r: string, i: int) {
    && OccursAt(s, r, i)
    && (forall k :: 0 <= k < i ==> IsSpace(s[k]))
    && (forall k :: i + |r| <= k < |s| ==> IsSpace(s[k]))
  }

  /** `str.strip()`: the slice of `s` left after removing whitespace from both
      ends; everything removed is whitespace and the result has none at its ends. */
  function Strip(s: string): (r: string)
    ensures exists i :: IsTrimmedSliceAt(s, r, i)
    ensures r == [] || (!IsSpace(r[0]) && !IsSpace(r[|r| - 1]))
  {
    var i := SpaceRun(s);
    var j := TrailingSpaceStart(s);
    if i < j then
      assert IsTrimmedSliceAt(s, s[i..j], i);
      s[i..j]
    else
      assert IsTrimmedSliceAt(s, [], |s|);
      []
  }
}

=== FILE: scoring.dfy ===
/**
  The answer metrics built on `normalize_answer`: token-overlap F1 with its
  precision and recall, exact match, and the contains-match scores `cem` and
  `cemf1`. Scores are exact rationals.
 */
module Scoring {
  import opened PyText
  import opened Choice
  import opened Normalizer

  /** The `(f1, precision, recall)` triple returned by `f1_score`. */
  datatype Score = Score(f1: real, precision: real, recall: real)

  /** `ZERO_METRIC`. */
  const ZeroMetric := Score(0.0, 0.0, 0.0)

  /** The answers scored all-or-nothing by `f1_score`. */
  predicate IsBinaryAnswer(n: string) {
    n == "yes" || n == "no" || n == "noanswer"
  }

  /** A sub-multiset is no larger than its super-multiset. */
  lemma SubMultisetCard<T>(a: multiset<T>, b: multiset<T>)
    requires a <= b
    ensures |a| <= |b|
    ensures |a| == |b| ==> a == b
  {
    assert |b - a| == |b| - |a|;
    if |a| == |b| {
      assert b - a == multiset{};
      forall x ensures a[x] == b[x] {
        assert (b - a)[x] == 0;
      }
    }
  }

  /** The overlap has full size exactly when one side is contained in the other. */
  lemma CommonFull<T>(a: multiset<T>, b: multiset<T>)
    ensures |a * b| <= |a|
    ensures |a * b| == |a| <==> a <= b
  {
    SubMultisetCard(a * b, a);
    if a <= b {
      assert a * b == a;
    }
  }

  /** `sum((Counter(p) & Counter(g)).values())`: how many tokens the two
      sequences share, counting each token up to its smaller multiplicity. */
  function NumSame(p: seq<string>, g: seq<string>): (k: nat)
    ensures k <= |p| && k <= |g|
    ensures k == |p| <==> multiset(p) <= multiset(g)
    ensures k == |g| <==> multiset(g) <= multiset(p)
  {
    CommonFull(multiset(p), multiset(g));
    CommonFull(multiset(g), multiset(p));
    assert multiset(p) * multiset(g) == multiset(g) * multiset(p);
    |multiset(p) * multiset(g)|
  }

  /** The shared-token count does not depend on the order of its arguments. */
  lemma NumSameSymmetric(p: seq<string>, g: seq<string>)
    ensures NumSame(p, g) == NumSame(g, p)
  {
    assert multiset(p) * multiset(g) == multiset(g) * multiset(p);
  }

  /** A ratio `k/n` with `0 < k <= n` lies in (0, 1] and is 1 exactly when `k == n`. */
  lemma RatioInUnit(k: nat, n: nat)
    requires 0 < k <= n
    ensures 0.0 < k as real / n as real <= 1.0
    ensures k as real / n as real == 1.0 <==> k == n
  {
  }

  /** The harmonic mean `2 * precision * recall / (precision + recall)`. */
  function Harmonic(precision: real, recall: real): real
    requires precision + recall != 0.0
  {
    (2.0 * precision * recall) / (precision + recall)
  }

  /** The token-level part of `f1_score`, after the yes/no/noanswer guard. */
  function TokenF1(p: seq<string>, g: seq<string>): (r: Score)
    ensures NumSame(p, g) == 0 ==> r == ZeroMetric
    ensures NumSame(p, g) > 0 ==> 0.0 < r.precision <= 1.0 && 0.0 < r.recall <= 1.0
  {
    var k := NumSame(p, g);
    if k == 0 then ZeroMetric
    else
      RatioInUnit(k, |p|);
      RatioInUnit(k, |g|);
      var precision := k as real / |p| as real;
      var recall := k as real / |g| as real;
      Score(Harmonic(precision, recall), precision, recall)
  }

  /** When `f1_score` gives no partial credit: one normalised side is a
      yes/no/noanswer answer and the two normalised sides differ. */
  predicate BinaryGuard(np: string, ng: string) {
    (IsBinaryAnswer(np) || IsBinaryAnswer(ng)) && np != ng
  }

  /** `f1_score(prediction, ground_truth)`. */
  function F1Score(prediction: string, groundTruth: string): (r: Score)
    ensures BinaryGuard(NormalizeStandard(prediction), NormalizeStandard(groundTruth)) ==> r == ZeroMetric
    ensures r == ZeroMetric || (0.0 < r.precision <= 1.0 && 0.0 < r.recall <= 1.0)
  {
    var np := NormalizeStandard(prediction);
    var ng := NormalizeStandard(groundTruth);
    if IsBinaryAnswer(np) && np != ng then ZeroMetric
    else if IsBinaryAnswer(ng) && np != ng then ZeroMetric
    else TokenF1(Split(np), Split(ng))
  }

  /** The shared-token count `num_same` of `f1_score`. */
  function F1NumSame(prediction: string, groundTruth: string): nat {
    NumSame(Split(NormalizeStandard(prediction)), Split(NormalizeStandard(groundTruth)))
  }

  /** The harmonic mean of `k/a` and `k/b` is `2k/(a+b)`. */
  lemma HarmonicOfRatios(k: real, a: real, b: real)
    requires 0.0 < k && 0.0 < a && 0.0 < b
    ensures Harmonic(k / a, k / b) == 2.0 * k / (a + b)
  {
  }

  /** With at least one shared token, precision, recall and F1 lie in (0, 1],
      F1 is `2k/(|p|+|g|)`, precision is 1 exactly when every predicted token
      is matched, recall exactly when every reference token is, and F1 exactly
      when the two token multisets are equal. */
  lemma TokenF1Unit(p: seq<string>, g: seq<string>)
    requires NumSame(p, g) > 0
    ensures TokenF1(p, g).f1 == 2.0 * NumSame(p, g) as real / (|p| + |g|) as real
    ensures 0.0 < TokenF1(p, g).f1 <= 1.0
    ensures TokenF1(p, g).precision == 1.0 <==> multiset(p) <= multiset(g)
    ensures TokenF1(p, g).recall == 1.0 <==> multiset(g) <= multiset(p)
    ensures TokenF1(p, g).f1 == 1.0 <==> multiset(p) == multiset(g)
  {
    var k := NumSame(p, g);
    RatioInUnit(k, |p|);
    RatioInUnit(k, |g|);
    HarmonicOfRatios(k as real, |p| as real, |g| as real);
    DiceInUnit(k, |p|, |g|);
  }

  /** `2k/(a+b)` with `0 < k <= a, b` lies in (0, 1] and is 1 exactly when
      `k == a == b`. */
  lemma DiceInUnit(k: nat, a: nat, b: nat)
    requires 0 < k <= a && k <= b
    ensures 0.0 < 2.0 * k as real / (a + b) as real <= 1.0
    ensures 2.0 * k as real / (a + b) as real == 1.0 <==> k == a && k == b
  {
  }

  /** Swapping the token sequences keeps F1 and exchanges precision and recall. */
  lemma TokenF1Swap(p: seq<string>, g: seq<string>)
    ensures TokenF1(g, p) == Score(TokenF1(p, g).f1, TokenF1(p, g).recall, TokenF1(p, g).precision)
  {
    NumSameSymmetric(p, g);
    if NumSame(p, g) > 0 {
      var pr := NumSame(p, g) as real / |p| as real;
      var rc := NumSame(p, g) as real / |g| as real;
      assert 2.0 * pr * rc == 2.0 * rc * pr;
    }
  }

  /** `f1_score` lies in [0, 1] and returns `ZERO_METRIC` exactly when the
      yes/no/noanswer guard fires or no token is shared; an empty normalised
      side always gives `ZERO_METRIC`. */
  lemma F1Bounds(prediction: string, groundTruth: string)
    ensures var r := F1Score(prediction, groundTruth);
      && 0.0 <= r.f1 <= 1.0 && 0.0 <= r.precision <= 1.0 && 0.0 <= r.recall <= 1.0
    ensures F1NumSame(prediction, groundTruth)
      <= |Split(NormalizeStandard(prediction))|
    ensures F1NumSame(prediction, groundTruth)
      <= |Split(NormalizeStandard(groundTruth))|
    ensures F1Score(prediction, groundTruth) == ZeroMetric <==>
      BinaryGuard(NormalizeStandard(prediction), NormalizeStandard(groundTruth))
      || F1NumSame(prediction, groundTruth) == 0
    ensures NormalizeStandard(prediction) == [] || NormalizeStandard(groundTruth) == [] ==>
      F1Score(prediction, groundTruth) == ZeroMetric
  {
    var p := Split(NormalizeStandard(prediction));
    var g := Split(NormalizeStandard(groundTruth));
    if NumSame(p, g) > 0 {
      TokenF1Unit(p, g);
    }
  }

  /** F1 is 1 exactly when the guard does not fire, the prediction has tokens
      and the two token multisets are equal. */
  lemma F1PerfectIff(prediction: string, groundTruth: string)
    ensures F1Score(prediction, groundTruth).f1 == 1.0 <==>
      && !BinaryGuard(NormalizeStandard(prediction), NormalizeStandard(groundTruth))
      && Split(NormalizeStandard(prediction)) != []
      && multiset(Split(NormalizeStandard(prediction))) == multiset(Split(NormalizeStandard(groundTruth)))
  {
    var p := Split(NormalizeStandard(prediction));
    var g := Split(NormalizeStandard(groundTruth));
    CommonFull(multiset(p), multiset(g));
    if NumSame(p, g) > 0 {
      TokenF1Unit(p, g);
    }
  }

  /** Swapping prediction and ground truth keeps F1 and exchanges precision
      with recall; the guard is symmetric too. */
  lemma F1Symmetric(a: string, b: string)
    ensures F1Score(b, a) == Score(F1Score(a, b).f1, F1Score(a, b).recall, F1Score(a, b).precision)
  {
    TokenF1Swap(Split(NormalizeStandard(a)), Split(NormalizeStandard(b)));
  }

  /** A non-empty normalised string splits into at least one token. */
  lemma NormalizedHasTokens(s: string)
    requires NormalizeStandard(s) != []
    ensures Split(NormalizeStandard(s)) != []
  {
  }

  /** Two answers that normalise to the same non-empty string score a perfect
      `(1, 1, 1)`. */
  lemma F1EqualNormalized(prediction: string, groundTruth: string)
    requires NormalizeStandard(prediction) == NormalizeStandard(groundTruth)
    requires NormalizeStandard(prediction) != []
    ensures F1Score(prediction, groundTruth) == Score(1.0, 1.0, 1.0)
  {
    NormalizedHasTokens(prediction);
    var p := Split(NormalizeStandard(prediction));
    CommonFull(multiset(p), multiset(p));
    TokenF1Unit(p, p);
  }

  /** `exact_match_score(prediction, ground_truth, normal_method)`. */
  function ExactMatch(prediction: string, groundTruth: string, normalMethod: string): (r: bool)
    ensures normalMethod != "mc" && prediction == groundTruth ==> r
    ensures normalMethod == "mc" && Strip(groundTruth) == [] ==> r
  {
    ContainsTrivial(Lower(Strip(NormalizeAnswer(prediction, normalMethod))));
    if normalMethod == "mc" then
      Contains(Lower(Strip(NormalizeAnswer(prediction, normalMethod))), Lower(Strip(groundTruth)))
    else
      NormalizeAnswer(prediction, normalMethod) == NormalizeAnswer(groundTruth, normalMethod)
  }

  /** Outside `"mc"` mode, exact match is equality of the standard
      normalisations; it is therefore reflexive and symmetric. */
  lemma ExactMatchStandard(prediction: string, groundTruth: string, normalMethod: string)
    requires normalMethod != "mc"
    ensures ExactMatch(prediction, groundTruth, normalMethod) <==>
      NormalizeStandard(prediction) == NormalizeStandard(groundTruth)
    ensures ExactMatch(prediction, prediction, normalMethod)
    ensures ExactMatch(prediction, groundTruth, normalMethod) == ExactMatch(groundTruth, prediction, normalMethod)
  {
  }

  /** In `"mc"` mode exact match holds exactly when the stripped, lower-cased
      ground truth occurs in the stripped, lower-cased extracted choice; a
      ground truth that is empty after stripping always matches, and when the
      prediction has no choice nothing else does. */
  lemma ExactMatchChoice(prediction: string, groundTruth: string)
    ensures ExactMatch(prediction, groundTruth, "mc") <==>
      exists i :: OccursAt(Lower(Strip(McRemove(prediction))), Lower(Strip(groundTruth)), i)
    ensures Strip(groundTruth) == [] ==> ExactMatch(prediction, groundTruth, "mc")
    ensures McRemove(prediction) == [] ==>
      (ExactMatch(prediction, groundTruth, "mc") <==> Strip(groundTruth) == [])
  {
    ContainsIffOccurs(Lower(Strip(McRemove(prediction))), Lower(Strip(groundTruth)));
    ContainsTrivial(Lower(Strip(McRemove(prediction))));
    if McRemove(prediction) == [] {
      assert Strip([]) == [];
    }
  }

  /** The test shared by `cem_score` and `cemf1_score`. */
  predicate ContainsMatch(np: string, ng: string) {
    np == ng || Contains(np, ng)
  }

  /** `cem_score(prediction, ground_truth)`. */
  function CemScore(prediction: string, groundTruth: string): (r: real)
    ensures r == 0.0 || r == 1.0
    ensures NormalizeStandard(groundTruth) == [] ==> r == 1.0
  {
    ContainsTrivial(NormalizeStandard(prediction));
    if ContainsMatch(NormalizeStandard(prediction), NormalizeStandard(groundTruth)) then 1.0 else 0.0
  }

  /** `cemf1_score(prediction, ground_truth)`. */
  function Cemf1Score(prediction: string, groundTruth: string): (r: real)
    ensures F1Score(prediction, groundTruth).f1 <= r <= 1.0
    ensures CemScore(prediction, groundTruth) == 1.0 ==> r == 1.0
  {
    F1Bounds(prediction, groundTruth);
    if ContainsMatch(NormalizeStandard(prediction), NormalizeStandard(groundTruth)) then 1.0
    else F1Score(prediction, groundTruth).f1
  }

  /** `cem_score` is 1 exactly when the normalised ground truth occurs in the
      normalised prediction (equality and an empty ground truth included),
      and 0 otherwise. */
  lemma CemIff(prediction: string, groundTruth: string)
    ensures CemScore(prediction, groundTruth) == 1.0 <==>
      exists i :: OccursAt(NormalizeStandard(prediction), NormalizeStandard(groundTruth), i)
    ensures CemScore(prediction, groundTruth) == 0.0 || CemScore(prediction, groundTruth) == 1.0
    ensures NormalizeStandard(groundTruth) == [] ==> CemScore(prediction, groundTruth) == 1.0
  {
    var np := NormalizeStandard(prediction);
    var ng := NormalizeStandard(groundTruth);
    ContainsTrivial(np);
    ContainsIffOccurs(np, ng);
  }

  /** `cemf1_score` is 1 in exactly the cases `cem_score` is, and F1 otherwise,
      so `0 <= cem <= cemf1 <= 1`. */
  lemma Cemf1Order(prediction: string, groundTruth: string)
    ensures CemScore(prediction, groundTruth) == 1.0 ==> Cemf1Score(prediction, groundTruth) == 1.0
    ensures CemScore(prediction, groundTruth) == 0.0 ==>
      Cemf1Score(prediction, groundTruth) == F1Score(prediction, groundTruth).f1
    ensures 0.0 <= CemScore(prediction, groundTruth) <= Cemf1Score(prediction, groundTruth) <= 1.0
    ensures F1Score(prediction, groundTruth).f1 <= Cemf1Score(prediction, groundTruth)
  {
    F1Bounds(prediction, groundTruth);
  }

  /** An exact match in standard mode scores 1 on `cem` and `cemf1`, and a
      perfect F1 unless both sides normalise to the empty string. */
  lemma ExactMatchScoresOne(prediction: string, groundTruth: string)
    requires ExactMatch(prediction, groundTruth, "")
    ensures CemScore(prediction, groundTruth) == 1.0
    ensures Cemf1Score(prediction, groundTruth) == 1.0
    ensures NormalizeStandard(groundTruth) != [] ==> F1Score(prediction, groundTruth).f1 == 1.0
  {
    if NormalizeStandard(groundTruth) != [] {
      F1EqualNormalized(prediction, groundTruth);
    }
  }
}
